=== FILE: README.md ===
# XALT chatbot maker: crawl worklist and Render URL scan, in Dafny

The repository is a pipeline that scrapes a website, indexes the text for
retrieval-augmented question answering, and deploys the result to Render.
Almost all of it calls out to external services. This project models the
two pieces that hold logic of their own.

- **The same-site crawl** of `tools/scrap_and_filter.py` (module `Crawl`,
  file `scrap_and_filter.dfy`). `crawl_website` runs a breadth-first loop
  over a FIFO `to_visit` list. It uses a visited set and an optional
  `max_pages` bound. It adds `https://` to a start URL that has no web
  scheme. It scrapes each page once and collects a dump of
  `"\n--- Page: <url> ---\n<text>\n"` blocks. It only follows links that
  `is_internal_link` accepts. The model is a pure step function over
  `CrawlState(queue, visited, dump, scraped)`, driven by the method
  `CrawlWebsite`. `scraped` is the sequence of "Scraping" log lines, that
  is, the pages actually fetched.
- **The CLI output scan** of `get_render_url` in `utils/render_utils.py`
  (module `RenderCli`, file `render_utils.dfy`). Given the return code and
  standard output of `render services list`, it returns the first `https://`
  token of the first line that contains the service name and has such a
  token. It returns `None` on a non-zero return code or when no line
  qualifies.

Supporting modules: `Wrappers` (`Option`) and `Text` (Python's
`startswith`, substring `in`, order-preserving filtering and `"".join`).

What comes from outside is a parameter:

- `Crawl.Web` bundles four uninterpreted functions. `fetch` covers the HTTP
  GET, `raise_for_status`, BeautifulSoup parsing and visible-text
  extraction. On success it gives the visible text and the `href` values of
  the anchors left after `script`, `style` and `noscript` are removed (lines
  26-27 and 42), in document order. It returns `None` when the GET or the status check raises:
  those are the only exceptions `scrape_page` catches (lines 31-36). `join` is `urljoin`.
  `scheme` is `urlparse(..).scheme`. `registeredDomain` is tldextract's
  `registered_domain`.
- The source keeps the visited set in a module global that outlives a
  call. Here it is the input `visited0` and the output `visited` of
  `CrawlWebsite`, so the contracts show what one crawl leaves for the next.
  For example, if the start URL was already visited by an earlier call in
  the same process, nothing is scraped and the dump is empty.
- The subprocess result of `render services list` becomes two inputs:
  `returnCode` and `stdout`.

## Model

| member | source | states |
|---|---|---|
| Crawl.NormaliseStart | tools/scrap_and_filter.py:49-50 | the result always starts with `http://` or `https://`; it equals the input exactly when the input already had one of these prefixes; otherwise it is `https://` followed by the input |
| Crawl.HasWebPrefix | tools/scrap_and_filter.py:49 | the tuple form of `startswith`: the URL begins with `http://` or with `https://` |
| Crawl.NormaliseStartIdempotent | tools/scrap_and_filter.py:49-50 | normalising a normalised start URL changes nothing |
| Crawl.IsWebScheme | tools/scrap_and_filter.py:19 | the scheme is one of `http` and `https`; `is_internal_link` rejects every other scheme |
| Crawl.IsInternalLink | tools/scrap_and_filter.py:17-23 | a link whose scheme is not `http` or `https` is never internal; otherwise it is internal exactly when its registered domain equals the base URL's |
| Crawl.InternalLinkTransitive | tools/scrap_and_filter.py:17-23 | if b is internal to a and c is internal to b, then c is internal to a |
| Crawl.JoinAll | tools/scrap_and_filter.py:42-43 | one joined URL per `href`, at the same position: the `urljoin` of the page URL and that `href` |
| Crawl.InternalLinks | tools/scrap_and_filter.py:41-45 | every kept link is internal to the page and is the join of one of the page's hrefs; every href whose join is internal is kept; no more links than hrefs |
| Crawl.InternalLinksFilterJoins | tools/scrap_and_filter.py:41-45 | the links are exactly the joined hrefs filtered by `is_internal_link` against the page, in document order and with repetitions |
| Crawl.ScrapePage | tools/scrap_and_filter.py:30-46 | a failed request gives empty text and no links; a successful one gives the page's text; every link has a web scheme and the page's registered domain |
| Crawl.ScrapePageKeepsInternalJoins | tools/scrap_and_filter.py:38-46 | after a successful request the links are exactly the page's joined hrefs that are internal, in document order and with repetitions |
| Crawl.Continues | tools/scrap_and_filter.py:55 | the loop runs while the queue is non-empty and, with a limit, fewer URLs than the limit are visited; a limit of zero or below never lets it run |
| Crawl.PageEntry | tools/scrap_and_filter.py:63 | the dump entry of a page: a newline, `--- Page: `, the URL, ` ---`, a newline, the text and a final newline |
| Crawl.EntryOf | tools/scrap_and_filter.py:61-63 | the dump entry of one scraped page: nothing when the text `scrape_page` returns is empty, otherwise that page's `PageEntry` |
| Crawl.Entries | tools/scrap_and_filter.py:62-63 | the reference `content_dump`: the entries of the scraped URLs, concatenated in scraping order |
| Crawl.Step | tools/scrap_and_filter.py:55-68 | FIFO: the head is removed and the rest of the queue keeps its order at the front; an already-visited head changes nothing else and is not scraped; an unvisited head is added to the visited set and logged as scraped; the appended URLs are exactly the page's links that are not visited after the head is added |
| Crawl.StepAppendsInPageOrder | tools/scrap_and_filter.py:64-68 | for an unvisited head, the appended part of the queue is the page's links filtered by "not in the visited set after adding the head", in the page's order and with repetitions |
| Crawl.StepOnFailedFetch | tools/scrap_and_filter.py:34-64 | a page whose fetch fails is still marked visited and logged, but adds nothing to the dump or the queue |
| Crawl.DuplicateLinkEnqueuedTwice | tools/scrap_and_filter.py:42-68 | a page whose two hrefs join to the same internal, unvisited URL puts that URL at the end of the queue twice; the queue is not duplicate-free |
| Crawl.StepKeepsSameSite | tools/scrap_and_filter.py:42-68 | if every queued and scraped URL has registered domain d, this still holds after a step |
| Crawl.StepKeepsBookkeeping | tools/scrap_and_filter.py:56-64 | a step preserves three facts: no URL is scraped twice; nothing visited before the crawl is scraped; the visited set grows by exactly the scraped URLs, one each |
| Crawl.EntriesAppend | tools/scrap_and_filter.py:62-63 | scraping one more page extends the dump by that page's entry alone, and by nothing when the page's text is empty |
| Crawl.StepExtendsDump | tools/scrap_and_filter.py:56-64 | if the dump holds the entries of the scraped pages in scraping order, it still does after a step |
| Crawl.StepKeepsFrontier | tools/scrap_and_filter.py:56-68 | if every link of every scraped page is visited or queued, it still is after a step: a popped head ends up visited, and a newly scraped page's unvisited links are appended |
| Crawl.FrontierAdvances | tools/scrap_and_filter.py:56-68 | the same frontier property for any successor state that visits the old head, keeps the rest of the queue in front and queues the scraped page's unvisited links |
| Crawl.StepKeepsReached | tools/scrap_and_filter.py:52-68 | if every queued URL is the start or a link of a scraped page, and every page scraped after the first is a link of an earlier one, both still hold after a step: only the queue head is ever scraped, and only its links are queued |
| Crawl.ReachedAdvances | tools/scrap_and_filter.py:56-68 | the same reachability facts for any successor that scrapes the old head, keeps the rest of the queue in front and appends only links of the head's page; the start can be the head only before anything was scraped |
| Crawl.LinkedFromExtends | tools/scrap_and_filter.py:61-68 | a URL found among the links of the first pages scraped stays found when another page is scraped |
| Crawl.CrawlInvariantAtStart | tools/scrap_and_filter.py:52-53 | the state with only the start URL queued, nothing scraped and an empty dump satisfies the whole loop invariant |
| Crawl.FrontierClosesAtEmptyQueue | tools/scrap_and_filter.py:55 | once the queue is empty, every link of every scraped page has been visited |
| Crawl.StepRespectsPageBound | tools/scrap_and_filter.py:55-64 | with `max_pages` set, a step taken while the guard holds leaves at most `max_pages` visited URLs |
| Crawl.StepStaysInUniverse | tools/scrap_and_filter.py:55-68 | on a link graph closed under scraping, the queue stays inside the graph, and scraping a page uses up one unvisited URL of the graph |
| Crawl.StepKeepsCrawlInvariant | tools/scrap_and_filter.py:55-68 | one loop iteration preserves the whole crawl invariant: same site, the bookkeeping, the queue inside the link graph, the page limit, the facts about the start URL, every link of a scraped page visited or queued, and every queued or scraped URL reached by links from the start |
| Crawl.CrawlOutcome | tools/scrap_and_filter.py:55-68 | when the loop stops: nothing was scraped if the start URL was already visited or the page limit was already reached; otherwise the start URL was scraped first; the number of pages scraped is at most the limit minus the initial visited count; the visited set, the domain and the dump are as `CrawlWebsite` states; unless the limit stopped the loop, every link of a scraped page was visited; every page scraped after the first is a link of an earlier one |
| Crawl.CrawlWebsite | tools/scrap_and_filter.py:48-73 | the final visited set is the initial one plus the scraped URLs, and its size is the initial size plus the number of pages scraped, so no URL is scraped twice; nothing visited before is scraped; every scraped URL shares the registered domain of the normalised start URL; the returned dump holds one entry per scraped page with non-empty text, in scraping order; with `max_pages`, the visited set stays within the limit, and a run that starts at or over it (including any limit of zero or below) scrapes nothing; a start URL left visited by an earlier call yields nothing; otherwise the start URL is the first page scraped; unless the crawl stopped at the page limit, every internal link of every scraped page was visited, so the crawl follows links until the queue runs dry; conversely every page scraped after the start is a link of a page scraped before it, so the crawl reaches nothing it was not led to |
| Text.Filter | tools/scrap_and_filter.py:66-68 | the kept elements are exactly the input elements that pass the test; the result is no longer than the input |
| Text.FilterAppend | tools/scrap_and_filter.py:66-68 | filtering distributes over concatenation, so enqueued links keep their discovery order |
| Text.Contains | utils/render_utils.py:56 | `service_name in line`: the name starts the line or occurs in the rest of it |
| Text.ContainsIffOccurs | utils/render_utils.py:56 | the left-to-right `service_name in line` scan holds exactly when the name occurs at some offset of the line |
| Text.StartsWith | tools/scrap_and_filter.py:49 | Python's `s.startswith(prefix)`: the prefix is no longer than the string and equals its first characters; also used at utils/render_utils.py:59 |
| RenderCli.IsLineBoundary | utils/render_utils.py:55 | the characters at which `str.splitlines` cuts: `\n`, `\r`, `\x0b`, `\x0c`, `\x1c`-`\x1e`, `\x85`, U+2028 and U+2029 |
| RenderCli.IsSpace | utils/render_utils.py:57 | the characters for which `str.isspace` holds and at which `str.split()` cuts: `\t`-`\r`, `\x1c`-`\x1f`, space, `\x85`, `\xa0`, U+1680, U+2000-U+200A, U+2028, U+2029, U+202F, U+205F and U+3000 |
| RenderCli.SplitLines | utils/render_utils.py:55 | no line contains a line-boundary character |
| RenderCli.SplitLinesDropsOnlyBoundaries | utils/render_utils.py:55 | concatenating the lines gives back the output with exactly its line-boundary characters removed |
| RenderCli.SplitLinesCutsAtBreak | utils/render_utils.py:55 | where the output is cut: a boundary-free line followed by one line break (`\r\n` counts as one) is the first line, and splitting carries on after the break |
| RenderCli.SplitLinesOfOneLine | utils/render_utils.py:55 | a non-empty text without boundaries is one line, so a final line needs no terminator |
| RenderCli.SplitLinesOfTerminated | utils/render_utils.py:55 | round trip: boundary-free lines written out with `\n` terminators split back into exactly those lines |
| RenderCli.Tokens | utils/render_utils.py:57 | every token is non-empty and free of whitespace |
| RenderCli.TokensDropOnlySpaces | utils/render_utils.py:57 | concatenating the tokens gives back the line with exactly its whitespace removed |
| RenderCli.TokensSkipSpaces | utils/render_utils.py:57 | leading whitespace yields no token |
| RenderCli.TokensCutAtSpace | utils/render_utils.py:57 | where the line is cut: a non-empty run of non-whitespace followed by whitespace is a whole token, and splitting carries on after the whitespace |
| RenderCli.TokensOfOneWord | utils/render_utils.py:57 | a non-empty whitespace-free line is one token |
| RenderCli.TokensOfSpaced | utils/render_utils.py:57 | round trip: non-empty whitespace-free tokens written out with spaces between them split back into exactly those tokens |
| RenderCli.FirstHttps | utils/render_utils.py:58-60 | `None` exactly when no part starts with `https://`; otherwise the result is such a part, and every part before it does not start with `https://` |
| RenderCli.IsHttpsUrl | utils/render_utils.py:59 | `part.startswith("https://")`: the part begins with `https://` |
| RenderCli.FirstHttpsIsFirstFiltered | utils/render_utils.py:58-60 | the inner loop returns the head of the parts that start with `https://` |
| RenderCli.FindServiceUrl | utils/render_utils.py:55-61 | the loop over the lines: any URL it returns starts with `https://` |
| RenderCli.FindServiceUrlNoneIff | utils/render_utils.py:55-63 | the scan finds nothing exactly when no line both contains the service name and has an `https://` token |
| RenderCli.FindServiceUrlFirstMatch | utils/render_utils.py:55-60 | a found URL is the first `https://` token of some line that contains the name and has such a token, and no earlier line has both |
| RenderCli.FindServiceUrlFromSomeLine | utils/render_utils.py:55-60 | a found URL is the first `https://` token of some line that contains the service name |
| RenderCli.NonYieldingLineIgnored | utils/render_utils.py:55-61 | inserting a line that lacks the name, or has it but no `https://` token, anywhere in the output does not change the result; the scan falls through it |
| RenderCli.SubstringNameMatchesOtherService | utils/render_utils.py:55-60 | the name is matched as a substring: if the first line of the listing belongs to another service whose name contains the requested one (`svc-2` for `svc`), that service's `https://` URL is returned, whatever follows, including the requested service's own line |
| RenderCli.FindServiceUrlIsFirstCandidate | utils/render_utils.py:55-63 | the scan returns the first element of all `https://` tokens of all lines that contain the name, taken in line order and then token order, or `None` if there is none |
| RenderCli.GetRenderUrl | utils/render_utils.py:39-63 | a non-zero return code gives `None`; any result starts with `https://` and is a whitespace-separated token of a line that contains the service name; the result is `None` exactly when the return code is non-zero or no such line has an `https://` token; with return code 0 it is the first of all `https://` tokens of lines containing the name, taken in line order and then token order |

## Left out

- The HTTP fetch, BeautifulSoup parsing and visible-text extraction (`scrape_page` lines 32-39, `extract_visible_text`) are third-party library and network code. They are the oracle `Web.fetch`.
- `urljoin`, `urlparse` and `tldextract` are library code. They are the oracles `Web.join`, `Web.scheme` and `Web.registeredDomain`. The scheme oracle returns what `urlparse` reports, which is already lower-cased.
- Exceptions that escape `scrape_page` are not modelled. The oracles are total, so the model covers runs in which they do not raise. In the source, an exception from parsing (lines 38-39), from `urljoin` (line 43), from `urlparse` (line 18) or from `tldextract` (lines 21-22) aborts `crawl_website`. For example, `urljoin` raises `ValueError` on an href such as `http://[x`. Such a run writes no file and leaves the pages visited so far in the global visited set.
- `max_pages` is modelled as an optional integer. A non-integer limit (a float, say) is not modelled.
- Crawl.CrawlWebsite: without `max_pages`, only crawls over a finite link graph are modelled. That graph is the extra parameter `universe`: it holds the start URL, and every page in it links only inside it. On an unbounded graph the source's loop need not terminate, and a Dafny method must.
- Crawl.CrawlWebsite: the output file write (`txt/data_for_chatbot_xalt.txt`) and the returned path are I/O. The method returns the list `content_dump`; the written text is its `"".join`, which is `Text.Flatten` of it.
- The `print` calls other than the "Scraping" line are not modelled. That line is the `scraped` sequence.
- `chunk_text` (`textwrap.wrap`), `clean_text_with_ai` (a Cohere call) and `scrape_and_clean_and_vectorize` are library, network and file I/O.
- `create_render_service` and the `render services list` subprocess run an external CLI. Only the latter's result is modelled, as inputs.
- `app.py`, `rag_pipeline.py`, `vector_database.py`, `render_deploy.py`, `utils/github_utils.py` and `agents/deployment_agent.py` wrap the UI framework, FAISS, LangChain, Cohere, MongoDB, and the GitHub and Render REST APIs, plus `git` subprocesses and wall-clock polling. None of them is part of this model.

## Notes on the code as written

- The visited set is a module global (`tools/scrap_and_filter.py:15`) that outlives one call. The model makes it an explicit input and output.
- A page whose fetch fails is not simply skipped: it is added to the visited set (line 64), so a later crawl in the same process never retries it. `Crawl.StepOnFailedFetch` states this.
- The page limit counts the whole visited set, including URLs left by earlier calls. It does not count only the pages of the current crawl.
- `get_render_url` matches the service name as a substring. A service whose name contains another's can therefore supply the other's URL if it is listed first. `RenderCli.SubstringNameMatchesOtherService` states this.

=== FILE: render_utils.dfy ===
/**
  The output scan of `get_render_url` in `utils/render_utils.py`.

  The `render services list` subprocess is not modelled: its return code
  and captured standard output are the inputs. Lines are cut as Python's
  `str.splitlines` cuts them and tokens as the argument-less `str.split`
  does, with the same sets of boundary and whitespace characters.
 */
module RenderCli {
  import opened Wrappers
  import opened Text

  /** The line boundaries of `str.splitlines` (`\r\n` is handled by `SplitLines`). */
  predicate IsLineBoundary(c: char)
  {
    || c == '\n' || c == '\r'
    || c == '\U{000B}' || c == '\U{000C}'
    || ('\U{001C}' <= c <= '\U{001E}')
    || c == '\U{0085}' || c == '\U{2028}' || c == '\U{2029}'
  }

  predicate NotLineBoundary(c: char)
  {
    !IsLineBoundary(c)
  }

  /** The characters for which `str.isspace` holds, on which `str.split()` cuts. */
  predicate IsSpace(c: char)
  {
    || ('\U{0009}' <= c <= '\U{000D}')
    || ('\U{001C}' <= c <= '\U{001F}')
    || c == ' ' || c == '\U{0085}' || c == '\U{00A0}' || c == '\U{1680}'
    || ('\U{2000}' <= c <= '\U{200A}')
    || c == '\U{2028}' || c == '\U{2029}' || c == '\U{202F}' || c == '\U{205F}' || c == '\U{3000}'
  }

  predicate NotSpace(c: char)
  {
    !IsSpace(c)
  }

  ghost predicate NoBoundaryIn(line: string)
  {
    forall k :: 0 <= k < |line| ==> !IsLineBoundary(line[k])
  }

  ghost predicate NoSpaceIn(word: string)
  {
    forall k :: 0 <= k < |word| ==> !IsSpace(word[k])
  }

  ghost predicate AllSpace(spaces: string)
  {
    forall k :: 0 <= k < |spaces| ==> IsSpace(spaces[k])
  }

  /** `s.splitlines()`: no line holds a boundary, and a final boundary does not start an empty line. */
  function SplitLines(s: string): (lines: seq<string>)
    ensures forall i, k :: 0 <= i < |lines| && 0 <= k < |lines[i]| ==> !IsLineBoundary(lines[i][k])
    decreases |s|
  {
    if s == [] then []
    else
      var i := FirstIndex(s, IsLineBoundary);
      if i == |s| then [s]
      else
        var next := if s[i] == '\r' && i + 1 < |s| && s[i + 1] == '\n' then i + 2 else i + 1;
        [s[..i]] + SplitLines(s[next..])
  }

  /** Splitting into lines loses exactly the boundary characters and nothing else. */
  lemma {:induction false} SplitLinesDropsOnlyBoundaries(s: string)
    ensures Flatten(SplitLines(s)) == Filter(s, NotLineBoundary)
    decreases |s|
  {
    if s != [] {
      var i := FirstIndex(s, IsLineBoundary);
      if i == |s| {
        FilterKeepsAll(s, NotLineBoundary);
        assert SplitLines(s) == [s];
        assert Flatten([s]) == s + Flatten([]);
      } else {
        var next := if s[i] == '\r' && i + 1 < |s| && s[i + 1] == '\n' then i + 2 else i + 1;
        var line, sep, rest := s[..i], s[i..next], s[next..];
        assert s == line + sep + rest by {
          assert line + sep == s[..next];
        }
        FilterSkipsDropped(line, sep, rest, NotLineBoundary);
        SplitLinesDropsOnlyBoundaries(rest);
        assert SplitLines(s) == [line] + SplitLines(rest);
        assert Flatten([line] + SplitLines(rest)) == line + Flatten(SplitLines(rest));
      }
    }
  }

  /** A separator that `splitlines` treats as one line break in front of `rest`. */
  predicate IsLineBreak(sep: string, rest: string)
  {
    || sep == "\r\n"
    || (|sep| == 1 && IsLineBoundary(sep[0]) && !(sep[0] == '\r' && rest != [] && rest[0] == '\n'))
  }

  /**
    Where the text is cut: a boundary-free line followed by a line break is
    the first line, and splitting carries on after the break.
   */
  lemma {:induction false} SplitLinesCutsAtBreak(line: string, sep: string, rest: string)
    requires NoBoundaryIn(line)
    requires IsLineBreak(sep, rest)
    ensures SplitLines(line + sep + rest) == [line] + SplitLines(rest)
  {
    var s := line + sep + rest;
    assert s == line + (sep + rest);
    FirstIndexAfter(line, sep + rest, IsLineBoundary);
    assert s[|line|] == sep[0];
    assert s[..|line|] == line;
    assert s[|line| + |sep|..] == rest;
  }

  /** A non-empty text without line boundaries is a single line. */
  lemma SplitLinesOfOneLine(line: string)
    requires line != [] && NoBoundaryIn(line)
    ensures SplitLines(line) == [line]
  {
    assert line + [] == line;
    FirstIndexAfter(line, [], IsLineBoundary);
  }

  /** The lines written out one after another, each ended by `\n`. */
  function Terminated(lines: seq<string>): string
  {
    if lines == [] then [] else lines[0] + "\n" + Terminated(lines[1..])
  }

  /** Round trip: writing boundary-free lines with `\n` terminators and splitting gives them back. */
  lemma {:induction false} SplitLinesOfTerminated(lines: seq<string>)
    requires forall i :: 0 <= i < |lines| ==> NoBoundaryIn(lines[i])
    ensures SplitLines(Terminated(lines)) == lines
    decreases |lines|
  {
    if lines != [] {
      SplitLinesCutsAtBreak(lines[0], "\n", Terminated(lines[1..]));
      SplitLinesOfTerminated(lines[1..]);
    }
  }

  /** `line.split()`: the maximal runs of non-whitespace characters, in order. */
  function Tokens(line: string): (parts: seq<string>)
    ensures forall i :: 0 <= i < |parts| ==> parts[i] != []
    ensures forall i, k :: 0 <= i < |parts| && 0 <= k < |parts[i]| ==> !IsSpace(parts[i][k])
    decreases |line|
  {
    if line == [] then []
    else if IsSpace(line[0]) then Tokens(line[1..])
    else
      var j := FirstIndex(line, IsSpace);
      [line[..j]] + Tokens(line[j..])
  }

  /** Splitting into tokens loses exactly the whitespace and nothing else. */
  lemma {:induction false} TokensDropOnlySpaces(line: string)
    ensures Flatten(Tokens(line)) == Filter(line, NotSpace)
    decreases |line|
  {
    if line != [] {
      if IsSpace(line[0]) {
        assert line == [line[0]] + line[1..];
        FilterAppend([line[0]], line[1..], NotSpace);
        TokensDropOnlySpaces(line[1..]);
      } else {
        var j := FirstIndex(line, IsSpace);
        assert line == line[..j] + line[j..];
        FilterAppend(line[..j], line[j..], NotSpace);
        FilterKeepsAll(line[..j], NotSpace);
        TokensDropOnlySpaces(line[j..]);
      }
    }
  }

  /** Leading whitespace is skipped. */
  lemma {:induction false} TokensSkipSpaces(spaces: string, rest: string)
    requires AllSpace(spaces)
    ensures Tokens(spaces + rest) == Tokens(rest)
    decreases |spaces|
  {
    if spaces != [] {
      assert (spaces + rest)[1..] == spaces[1..] + rest;
      TokensSkipSpaces(spaces[1..], rest);
    } else {
      assert spaces + rest == rest;
    }
  }

  /** Where the line is cut: a run of non-whitespace ended by whitespace is a whole token. */
  lemma TokensCutAtSpace(token: string, spaces: string, rest: string)
    requires token != [] && NoSpaceIn(token)
    requires spaces != [] && AllSpace(spaces)
    ensures Tokens(token + spaces + rest) == [token] + Tokens(rest)
  {
    var line := token + spaces + rest;
    assert line == token + (spaces + rest);
    FirstIndexAfter(token, spaces + rest, IsSpace);
    assert line[..|token|] == token;
    assert line[|token|..] == spaces + rest;
    TokensSkipSpaces(spaces, rest);
  }

  /** A non-empty run of non-whitespace is a single token. */
  lemma TokensOfOneWord(token: string)
    requires token != [] && NoSpaceIn(token)
    ensures Tokens(token) == [token]
  {
    assert token + [] == token;
    FirstIndexAfter(token, [], IsSpace);
  }

  /** Two whitespace-free words with one space between them are two tokens. */
  lemma TokensOfTwoWords(a: string, b: string)
    requires a != [] && NoSpaceIn(a) && b != [] && NoSpaceIn(b)
    ensures Tokens(a + " " + b) == [a, b]
  {
    TokensCutAtSpace(a, " ", b);
    TokensOfOneWord(b);
  }

  /** The tokens written out one after another, each followed by a space. */
  function Spaced(tokens: seq<string>): string
  {
    if tokens == [] then [] else tokens[0] + " " + Spaced(tokens[1..])
  }

  /** Round trip: writing non-empty, whitespace-free tokens apart and splitting gives them back. */
  lemma {:induction false} TokensOfSpaced(tokens: seq<string>)
    requires forall i :: 0 <= i < |tokens| ==> tokens[i] != [] && NoSpaceIn(tokens[i])
    ensures Tokens(Spaced(tokens)) == tokens
    decreases |tokens|
  {
    if tokens != [] {
      TokensCutAtSpace(tokens[0], " ", Spaced(tokens[1..]));
      TokensOfSpaced(tokens[1..]);
    }
  }

  /** `part.startswith("https://")`. */
  predicate IsHttpsUrl(part: string)
  {
    StartsWith(part, "https://")
  }

  /** The inner loop: the first part that starts with `https://`. */
  function FirstHttps(parts: seq<string>): (url: Option<string>)
    ensures url.None? <==> forall j :: 0 <= j < |parts| ==> !IsHttpsUrl(parts[j])
    ensures url.Some? ==>
              exists j :: 0 <= j < |parts| && parts[j] == url.value && IsHttpsUrl(parts[j])
                          && forall j' :: 0 <= j' < j ==> !IsHttpsUrl(parts[j'])
  {
    if parts == [] then None
    else if IsHttpsUrl(parts[0]) then Some(parts[0])
    else
      var url := FirstHttps(parts[1..]);
      assert url.Some? ==> exists j :: 1 <= j < |parts| && parts[j] == url.value && IsHttpsUrl(parts[j])
                                       && forall j' :: 0 <= j' < j ==> !IsHttpsUrl(parts[j']) by {
        if url.Some? {
          var j :| 0 <= j < |parts[1..]| && parts[1..][j] == url.value && IsHttpsUrl(parts[1..][j])
                   && forall j' :: 0 <= j' < j ==> !IsHttpsUrl(parts[1..][j']);
          assert forall j' :: 0 <= j' < j + 1 ==> !IsHttpsUrl(parts[j']) by {
            forall j' | 0 <= j' < j + 1
              ensures !IsHttpsUrl(parts[j'])
            {
              if j' > 0 {
                assert parts[j'] == parts[1..][j' - 1];
              }
            }
          }
        }
      }
      url
  }

  /** A line that yields a result: it names the service and carries an `https://` token. */
  predicate Yields(line: string, serviceName: string)
  {
    Contains(line, serviceName) && FirstHttps(Tokens(line)).Some?
  }

  /** The outer loop over the lines of the listing. */
  function FindServiceUrl(lines: seq<string>, serviceName: string): (url: Option<string>)
    ensures url.Some? ==> IsHttpsUrl(url.value)
  {
    if lines == [] then None
    else if Contains(lines[0], serviceName) then
      match FirstHttps(Tokens(lines[0]))
      case Some(url) => Some(url)
      case None => FindServiceUrl(lines[1..], serviceName)
    else FindServiceUrl(lines[1..], serviceName)
  }

  /** The scan finds nothing exactly when no line yields. */
  lemma {:induction false} FindServiceUrlNoneIff(lines: seq<string>, serviceName: string)
    ensures FindServiceUrl(lines, serviceName).None? <==> forall i :: 0 <= i < |lines| ==> !Yields(lines[i], serviceName)
    decreases |lines|
  {
    if lines != [] {
      FindServiceUrlNoneIff(lines[1..], serviceName);
      assert forall i :: 1 <= i < |lines| ==> lines[i] == lines[1..][i - 1];
    }
  }

  /** A found URL comes from the first line that yields, and is that line's first `https://` token. */
  lemma {:induction false} FindServiceUrlFirstMatch(lines: seq<string>, serviceName: string) returns (i: nat)
    requires FindServiceUrl(lines, serviceName).Some?
    ensures i < |lines| && Yields(lines[i], serviceName)
    ensures FindServiceUrl(lines, serviceName) == FirstHttps(Tokens(lines[i]))
    ensures forall i' :: 0 <= i' < i ==> !Yields(lines[i'], serviceName)
    decreases |lines|
  {
    if Yields(lines[0], serviceName) {
      i := 0;
    } else {
      var k := FindServiceUrlFirstMatch(lines[1..], serviceName);
      i := k + 1;
      forall i' | 0 <= i' < i
        ensures !Yields(lines[i'], serviceName)
      {
        if i' > 0 {
          assert lines[i'] == lines[1..][i' - 1];
        }
      }
    }
  }

  /** The first-match lemma restated without the witness index. */
  lemma FindServiceUrlFromSomeLine(lines: seq<string>, serviceName: string)
    ensures FindServiceUrl(lines, serviceName).Some? ==>
              exists i :: 0 <= i < |lines| && Contains(lines[i], serviceName)
                          && FindServiceUrl(lines, serviceName) == FirstHttps(Tokens(lines[i]))
  {
    if FindServiceUrl(lines, serviceName).Some? {
      var i := FindServiceUrlFirstMatch(lines, serviceName);
    }
  }

  /**
    `get_render_url(service_name)` given the return code and standard output
    of `render services list`.
   */
  function GetRenderUrl(returnCode: int, stdout: string, serviceName: string): (url: Option<string>)
    ensures returnCode != 0 ==> url.None?
    ensures url.Some? ==> IsHttpsUrl(url.value)
    ensures url.Some? ==>
              exists line :: line in SplitLines(stdout) && Contains(line, serviceName) && url.value in Tokens(line)
    ensures url.None? <==>
              returnCode != 0
              || forall line :: line in SplitLines(stdout) && Contains(line, serviceName) ==>
                   forall t :: t in Tokens(line) ==> !IsHttpsUrl(t)
    ensures returnCode == 0 ==>
              url == if Candidates(SplitLines(stdout), serviceName) == [] then None
                     else Some(Candidates(SplitLines(stdout), serviceName)[0])
  {
    if returnCode != 0 then None
    else
      var lines := SplitLines(stdout);
      FindServiceUrlNoneIff(lines, serviceName);
      FindServiceUrlFromSomeLine(lines, serviceName);
      FindServiceUrlIsFirstCandidate(lines, serviceName);
      FindServiceUrl(lines, serviceName)
  }

  /** The `https://` tokens of all lines naming the service, in scanning order. */
  function Candidates(lines: seq<string>, serviceName: string): seq<string>
  {
    if lines == [] then []
    else
      (if Contains(lines[0], serviceName) then Filter(Tokens(lines[0]), IsHttpsUrl) else [])
      + Candidates(lines[1..], serviceName)
  }

  /** The first `https://` part is the head of the filtered parts. */
  lemma {:induction false} FirstHttpsIsFirstFiltered(parts: seq<string>)
    ensures FirstHttps(parts) == if Filter(parts, IsHttpsUrl) == [] then None else Some(Filter(parts, IsHttpsUrl)[0])
    decreases |parts|
  {
    if parts != [] {
      FirstHttpsIsFirstFiltered(parts[1..]);
    }
  }

  /** Reference semantics of the scan: the first of all candidate tokens. */
  lemma {:induction false} FindServiceUrlIsFirstCandidate(lines: seq<string>, serviceName: string)
    ensures FindServiceUrl(lines, serviceName)
            == if Candidates(lines, serviceName) == [] then None else Some(Candidates(lines, serviceName)[0])
    decreases |lines|
  {
    if lines != [] {
      FindServiceUrlIsFirstCandidate(lines[1..], serviceName);
      FirstHttpsIsFirstFiltered(Tokens(lines[0]));
    }
  }

  /**
    A line that does not yield (it lacks the service name, or names it but
    holds no `https://` token) is skipped wherever it stands: the scan
    carries on with the lines after it.
   */
  lemma {:induction false} NonYieldingLineIgnored(before: seq<string>, line: string, after: seq<string>,
                                                  serviceName: string)
    requires !Yields(line, serviceName)
    ensures FindServiceUrl(before + [line] + after, serviceName) == FindServiceUrl(before + after, serviceName)
    decreases |before|
  {
    if before == [] {
      assert before + [line] + after == [line] + after;
      assert ([line] + after)[1..] == after;
      assert before + after == after;
    } else {
      assert (before + [line] + after)[0] == before[0];
      assert (before + [line] + after)[1..] == before[1..] + [line] + after;
      assert (before + after)[0] == before[0];
      assert (before + after)[1..] == before[1..] + after;
      NonYieldingLineIgnored(before[1..], line, after, serviceName);
    }
  }

  /**
    The service name is matched as a substring of the line: when the line of
    another service whose name contains it (`svc-2` for `svc`) comes first,
    that service's URL is returned, whatever the rest of the listing holds,
    including the line of the service asked for.
   */
  lemma {:induction false} SubstringNameMatchesOtherService(other: string, otherUrl: string, rest: string,
                                                            serviceName: string)
    requires other != [] && NoSpaceIn(other) && !IsHttpsUrl(other) && Contains(other, serviceName)
    requires NoSpaceIn(otherUrl) && IsHttpsUrl(otherUrl)
    ensures GetRenderUrl(0, other + " " + otherUrl + "\n" + rest, serviceName) == Some(otherUrl)
  {
    TwoWordLineSplits(other, otherUrl, rest);
    assert otherUrl != [] by {
      assert |otherUrl| >= |"https://"|;
    }
    OtherServiceLineYields(other, otherUrl, SplitLines(rest), serviceName);
    GetRenderUrlScansLines(other + " " + otherUrl + "\n" + rest, serviceName);
  }

  lemma TwoWordLineSplits(a: string, b: string, rest: string)
    requires NoSpaceIn(a) && NoSpaceIn(b)
    ensures SplitLines(a + " " + b + "\n" + rest) == [a + " " + b] + SplitLines(rest)
  {
    TwoWordsNoBoundary(a, b);
    SplitLinesCutsAtBreak(a + " " + b, "\n", rest);
  }

  lemma OtherServiceLineYields(other: string, otherUrl: string, after: seq<string>, serviceName: string)
    requires other != [] && NoSpaceIn(other) && !IsHttpsUrl(other) && Contains(other, serviceName)
    requires otherUrl != [] && NoSpaceIn(otherUrl) && IsHttpsUrl(otherUrl)
    ensures FindServiceUrl([other + " " + otherUrl] + after, serviceName) == Some(otherUrl)
  {
    TwoWordsFirstHttps(other, otherUrl);
    ContainsExtends(other, " " + otherUrl, serviceName);
    assert other + (" " + otherUrl) == other + " " + otherUrl;
    YieldingFirstLine(other + " " + otherUrl, after, serviceName);
  }

  /** A first line that names the service and has an `https://` token decides the scan. */
  lemma YieldingFirstLine(line: string, after: seq<string>, serviceName: string)
    requires Contains(line, serviceName) && FirstHttps(Tokens(line)).Some?
    ensures FindServiceUrl([line] + after, serviceName) == FirstHttps(Tokens(line))
  {
    assert ([line] + after)[0] == line;
  }

  lemma TwoWordsFirstHttps(other: string, otherUrl: string)
    requires other != [] && NoSpaceIn(other) && !IsHttpsUrl(other)
    requires otherUrl != [] && NoSpaceIn(otherUrl) && IsHttpsUrl(otherUrl)
    ensures FirstHttps(Tokens(other + " " + otherUrl)) == Some(otherUrl)
  {
    TokensOfTwoWords(other, otherUrl);
    assert [other, otherUrl][1..] == [otherUrl];
  }

  /** With return code 0, the result is the scan of the output's lines. */
  lemma GetRenderUrlScansLines(stdout: string, serviceName: string)
    ensures GetRenderUrl(0, stdout, serviceName) == FindServiceUrl(SplitLines(stdout), serviceName)
  {
  }

  lemma TwoWordsNoBoundary(a: string, b: string)
    requires NoSpaceIn(a) && NoSpaceIn(b)
    ensures NoBoundaryIn(a + " " + b)
  {
    var line := a + " " + b;
    forall k | 0 <= k < |line|
      ensures !IsLineBoundary(line[k])
    {
      if k < |a| {
        assert line[k] == a[k];
      } else if k > |a| {
        assert line[k] == b[k - |a| - 1];
      }
    }
  }

}

=== FILE: scrap_and_filter.dfy ===
/**
  The same-site breadth-first crawl of `tools/scrap_and_filter.py`.

  The network fetch, the HTML parsing, `urljoin`, `urlparse` and the
  registered-domain computation of `tldextract` are not modelled: they are
  the uninterpreted fields of a `Web` value. The module-global visited set
  of the source is an explicit input and output of `CrawlWebsite`, so that
  what one crawl leaves behind for the next is visible in the contracts.
 */
module Crawl {
  import opened Wrappers
  import opened Text

  type Url = string

  /**
    What a successful fetch yields: the visible text, and the `href` values
    of the anchors left after `script`, `style` and `noscript` are removed,
    in document order.
   */
  datatype Html = Html(text: string, hrefs: seq<string>)

  /**
    The outside world of the crawler.
    - `fetch`: `requests.get` with `raise_for_status`, then HTML parsing and
      visible-text extraction; `None` stands for an exception of the request
      or of the status check, the only ones `scrape_page` catches. The
      parsing step is taken never to raise.
    - `join`: `urljoin(page, href)`.
    - `scheme`: the scheme component of `urlparse(url)`.
    - `registeredDomain`: `tldextract.extract(url).registered_domain`.
   */
  datatype Web = Web(
    fetch: Url -> Option<Html>,
    join: (Url, string) -> Url,
    scheme: Url -> string,
    registeredDomain: Url -> string)

  /** The `(text, links)` pair returned by `scrape_page`. */
  datatype Page = Page(text: string, links: seq<Url>)

  /**
    The crawl's bookkeeping: the FIFO `to_visit` list, the visited set, the
    `content_dump` list, and `scraped`, the URLs announced by the
    "Scraping" log line, in the order they were fetched.
   */
  datatype CrawlState = CrawlState(
    queue: seq<Url>,
    visited: set<Url>,
    dump: seq<string>,
    scraped: seq<Url>)

  /** `url.startswith(("http://", "https://"))`. */
  predicate HasWebPrefix(url: Url)
  {
    StartsWith(url, "http://") || StartsWith(url, "https://")
  }

  /** The start URL as the crawl uses it: `https://` is added unless a web scheme is already there. */
  function NormaliseStart(startUrl: Url): (r: Url)
    ensures HasWebPrefix(r)
    ensures |startUrl| <= |r| && r[|r| - |startUrl|..] == startUrl
    ensures r == startUrl <==> HasWebPrefix(startUrl)
    ensures r != startUrl ==> r[..|r| - |startUrl|] == "https://"
  {
    if HasWebPrefix(startUrl) then startUrl
    else
      var r := "https://" + startUrl;
      assert r[..|"https://"|] == "https://";
      r
  }

  lemma NormaliseStartIdempotent(startUrl: Url)
    ensures NormaliseStart(NormaliseStart(startUrl)) == NormaliseStart(startUrl)
  {
  }

  /** `scheme in ("http", "https")`. */
  predicate IsWebScheme(scheme: string)
  {
    scheme == "http" || scheme == "https"
  }

  /** `is_internal_link(base_url, link)`. */
  function IsInternalLink(web: Web, baseUrl: Url, link: Url): (internal: bool)
    ensures !IsWebScheme(web.scheme(link)) ==> !internal
    ensures IsWebScheme(web.scheme(link)) ==>
              (internal <==> web.registeredDomain(baseUrl) == web.registeredDomain(link))
  {
    if !IsWebScheme(web.scheme(link)) then false
    else web.registeredDomain(baseUrl) == web.registeredDomain(link)
  }

  /** Being internal is transitive: it only ever compares registered domains. */
  lemma InternalLinkTransitive(web: Web, a: Url, b: Url, c: Url)
    requires IsInternalLink(web, a, b) && IsInternalLink(web, b, c)
    ensures IsInternalLink(web, a, c)
  {
  }

  /** `urljoin(page, href)` for every `href` of a page, in document order. */
  function JoinAll(web: Web, pageUrl: Url, hrefs: seq<string>): (urls: seq<Url>)
    ensures |urls| == |hrefs|
    ensures forall i :: 0 <= i < |hrefs| ==> urls[i] == web.join(pageUrl, hrefs[i])
  {
    if hrefs == [] then [] else [web.join(pageUrl, hrefs[0])] + JoinAll(web, pageUrl, hrefs[1..])
  }

  /** The test `is_internal_link(page, ·)` as a value, for filtering. */
  function InternalTo(web: Web, pageUrl: Url): Url -> bool
  {
    link => IsInternalLink(web, pageUrl, link)
  }

  /**
    The link loop of `scrape_page`: resolve every `href` against the page and
    keep the internal ones, in document order and with repetitions.
   */
  function InternalLinks(web: Web, pageUrl: Url, hrefs: seq<string>): (links: seq<Url>)
    ensures |links| <= |hrefs|
    ensures forall i :: 0 <= i < |links| ==> IsInternalLink(web, pageUrl, links[i])
    ensures forall i :: 0 <= i < |links| ==> exists h :: h in hrefs && web.join(pageUrl, h) == links[i]
    ensures forall h :: h in hrefs && IsInternalLink(web, pageUrl, web.join(pageUrl, h)) ==>
              web.join(pageUrl, h) in links
  {
    if hrefs == [] then []
    else
      var href := web.join(pageUrl, hrefs[0]);
      var rest := InternalLinks(web, pageUrl, hrefs[1..]);
      assert forall h :: h in hrefs[1..] ==> h in hrefs;
      (if IsInternalLink(web, pageUrl, href) then [href] else []) + rest
  }

  /**
    The link loop keeps document order and repetitions: its result is the
    list of joined hrefs filtered by `is_internal_link`.
   */
  lemma {:induction false} InternalLinksFilterJoins(web: Web, pageUrl: Url, hrefs: seq<string>)
    ensures InternalLinks(web, pageUrl, hrefs) == Filter(JoinAll(web, pageUrl, hrefs), InternalTo(web, pageUrl))
    decreases |hrefs|
  {
    if hrefs != [] {
      InternalLinksFilterJoins(web, pageUrl, hrefs[1..]);
      assert JoinAll(web, pageUrl, hrefs)[1..] == JoinAll(web, pageUrl, hrefs[1..]);
    }
  }

  /**
    `scrape_page(url)`: a failed fetch yields empty text and no links; a
    successful one yields the page text and its internal links.
   */
  function ScrapePage(web: Web, url: Url): (page: Page)
    ensures web.fetch(url).None? ==> page == Page("", [])
    ensures web.fetch(url).Some? ==> page.text == web.fetch(url).value.text
    ensures forall i :: 0 <= i < |page.links| ==>
              IsWebScheme(web.scheme(page.links[i]))
              && web.registeredDomain(page.links[i]) == web.registeredDomain(url)
  {
    match web.fetch(url)
    case None => Page("", [])
    case Some(html) => Page(html.text, InternalLinks(web, url, html.hrefs))
  }

  /**
    After a successful fetch the links are exactly the page's joined hrefs
    that are internal, in document order and with repetitions.
   */
  lemma ScrapePageKeepsInternalJoins(web: Web, url: Url)
    requires web.fetch(url).Some?
    ensures ScrapePage(web, url).links == Filter(JoinAll(web, url, web.fetch(url).value.hrefs), InternalTo(web, url))
  {
    InternalLinksFilterJoins(web, url, web.fetch(url).value.hrefs);
  }

  /** The block appended to the dump for a page with non-empty text. */
  function PageEntry(url: Url, text: string): string
  {
    "\n--- Page: " + url + " ---\n" + text + "\n"
  }

  /** The dump entry of one scraped page: none when its text is empty. */
  function EntryOf(web: Web, url: Url): seq<string>
  {
    var text := ScrapePage(web, url).text;
    if text == "" then [] else [PageEntry(url, text)]
  }

  /**
    Reference definition of the dump: one entry per scraped URL whose page
    text is non-empty, in the order of scraping.
   */
  function Entries(web: Web, scraped: seq<Url>): seq<string>
  {
    if scraped == [] then [] else EntryOf(web, scraped[0]) + Entries(web, scraped[1..])
  }

  lemma {:induction false} EntriesAppend(web: Web, scraped: seq<Url>, url: Url)
    ensures Entries(web, scraped + [url]) == Entries(web, scraped) + EntryOf(web, url)
    decreases |scraped|
  {
    if scraped == [] {
      assert scraped + [url] == [url];
      assert [url][1..] == [];
    } else {
      assert (scraped + [url])[0] == scraped[0];
      assert (scraped + [url])[1..] == scraped[1..] + [url];
      EntriesAppend(web, scraped[1..], url);
    }
  }

  /** The `while` guard of `crawl_website`. */
  predicate Continues(s: CrawlState, maxPages: Option<int>)
  {
    s.queue != [] && (maxPages.None? || |s.visited| < maxPages.value)
  }

  /** One iteration of the `while` loop of `crawl_website`. */
  function Step(web: Web, s: CrawlState): (r: CrawlState)
    requires s.queue != []
    ensures s.visited <= r.visited && |r.visited| <= |s.visited| + 1
    ensures |s.queue| - 1 <= |r.queue| && r.queue[..|s.queue| - 1] == s.queue[1..]
    ensures s.queue[0] in s.visited ==> r == s.(queue := s.queue[1..])
    ensures s.queue[0] !in s.visited ==>
              && r.visited == s.visited + {s.queue[0]}
              && r.scraped == s.scraped + [s.queue[0]]
    ensures forall i :: |s.queue| - 1 <= i < |r.queue| ==>
              r.queue[i] in ScrapePage(web, s.queue[0]).links && r.queue[i] !in r.visited
    ensures s.queue[0] !in s.visited ==>
              forall l :: l in ScrapePage(web, s.queue[0]).links && l !in r.visited ==>
                l in r.queue[|s.queue| - 1..]
  {
    var url := s.queue[0];
    var rest := s.queue[1..];
    if url in s.visited then s.(queue := rest)
    else
      var page := ScrapePage(web, url);
      var dump := if page.text != "" then s.dump + [PageEntry(url, page.text)] else s.dump;
      var visited := s.visited + {url};
      var unseen := Filter(page.links, l => l !in visited);
      var r := CrawlState(rest + unseen, visited, dump, s.scraped + [url]);
      assert r.queue[|rest|..] == unseen;
      r
  }

  /**
    The URLs a step appends are the page's links that are still unvisited,
    in the page's order and with their repetitions.
   */
  lemma StepAppendsInPageOrder(web: Web, s: CrawlState)
    requires s.queue != [] && s.queue[0] !in s.visited
    ensures Step(web, s).queue[|s.queue| - 1..]
            == Filter(ScrapePage(web, s.queue[0]).links, l => l !in s.visited + {s.queue[0]})
  {
  }

  /**
    A page whose fetch fails is still marked visited and logged, but adds
    nothing to the dump and nothing to the queue.
   */
  lemma StepOnFailedFetch(web: Web, s: CrawlState)
    requires s.queue != [] && s.queue[0] !in s.visited && web.fetch(s.queue[0]).None?
    ensures Step(web, s) == CrawlState(s.queue[1..], s.visited + {s.queue[0]}, s.dump, s.scraped + [s.queue[0]])
  {
    assert s.queue[1..] + [] == s.queue[1..];
  }

  /**
    Links are only checked against the visited set, not against the queue,
    so a page that links twice to the same unvisited URL puts it in the
    queue twice.
   */
  lemma DuplicateLinkEnqueuedTwice(web: Web, s: CrawlState, href: string)
    requires s.queue != [] && s.queue[0] !in s.visited
    requires web.fetch(s.queue[0]).Some? && web.fetch(s.queue[0]).value.hrefs == [href, href]
    requires IsInternalLink(web, s.queue[0], web.join(s.queue[0], href))
    requires web.join(s.queue[0], href) !in s.visited + {s.queue[0]}
    ensures Step(web, s).queue[|s.queue| - 1..] == [web.join(s.queue[0], href), web.join(s.queue[0], href)]
  {
    var url := s.queue[0];
    var link := web.join(url, href);
    assert Filter([link, link], l => l !in s.visited + {s.queue[0]}) == [link, link] by {
      FilterKeepsAll([link, link], l => l !in s.visited + {s.queue[0]});
    }
    PageWithDoubledHref(web, url, href);
    StepAppendsInPageOrder(web, s);
  }

  lemma PageWithDoubledHref(web: Web, url: Url, href: string)
    requires web.fetch(url).Some? && web.fetch(url).value.hrefs == [href, href]
    requires IsInternalLink(web, url, web.join(url, href))
    ensures ScrapePage(web, url).links == [web.join(url, href), web.join(url, href)]
  {
    var link := web.join(url, href);
    assert JoinAll(web, url, [href, href]) == [link, link];
    FilterKeepsAll([link, link], InternalTo(web, url));
    ScrapePageKeepsInternalJoins(web, url);
  }

  /** Every URL of `urls` has the registered domain `domain`. */
  ghost predicate SameSite(web: Web, urls: seq<Url>, domain: string)
  {
    forall i :: 0 <= i < |urls| ==> web.registeredDomain(urls[i]) == domain
  }

  /**
    A step never lets a URL of another registered domain into the queue:
    the links it appends are internal relative to the dequeued page, which
    is itself on the site.
   */
  lemma StepKeepsSameSite(web: Web, s: CrawlState, domain: string)
    requires s.queue != []
    requires SameSite(web, s.queue, domain) && SameSite(web, s.scraped, domain)
    ensures SameSite(web, Step(web, s).queue, domain) && SameSite(web, Step(web, s).scraped, domain)
  {
    var r := Step(web, s);
    var links := ScrapePage(web, s.queue[0]).links;
    forall i | 0 <= i < |r.queue|
      ensures web.registeredDomain(r.queue[i]) == domain
    {
      if i < |s.queue| - 1 {
        assert r.queue[i] == s.queue[1..][i];
      } else {
        assert r.queue[i] in links;
      }
    }
  }

  ghost predicate NoDuplicates<T>(xs: seq<T>)
  {
    forall i, j :: 0 <= i < j < |xs| ==> xs[i] != xs[j]
  }

  /**
    The bookkeeping of one crawl that started from the visited set
    `visited0`: nothing is scraped twice or scraped if it was visited
    before, and the visited set grows by exactly the scraped URLs.
   */
  ghost predicate Bookkeeping(visited0: set<Url>, s: CrawlState)
  {
    && NoDuplicates(s.scraped)
    && (forall i :: 0 <= i < |s.scraped| ==> s.scraped[i] !in visited0)
    && (forall u :: u in s.visited <==> u in visited0 || u in s.scraped)
    && |s.visited| == |visited0| + |s.scraped|
  }

  lemma StepKeepsBookkeeping(web: Web, visited0: set<Url>, s: CrawlState)
    requires s.queue != [] && Bookkeeping(visited0, s)
    ensures Bookkeeping(visited0, Step(web, s))
  {
    var url := s.queue[0];
    if url !in s.visited {
      assert |Step(web, s).visited| == |s.visited| + 1;
    }
  }

  /** The dump always holds the entries of the scraped pages, in scraping order. */
  lemma StepExtendsDump(web: Web, s: CrawlState)
    requires s.queue != [] && s.dump == Entries(web, s.scraped)
    ensures Step(web, s).dump == Entries(web, Step(web, s).scraped)
  {
    if s.queue[0] !in s.visited {
      EntriesAppend(web, s.scraped, s.queue[0]);
    }
  }

  /** With a page limit, a step taken while the guard holds keeps the visited set within it. */
  lemma StepRespectsPageBound(web: Web, s: CrawlState, maxPages: Option<int>)
    requires Continues(s, maxPages)
    ensures maxPages.Some? ==> |Step(web, s).visited| <= maxPages.value
  {
  }

  /** No page of `universe` links outside `universe`. */
  ghost predicate LinkClosed(web: Web, universe: set<Url>)
  {
    forall u, l :: u in universe && l in ScrapePage(web, u).links ==> l in universe
  }

  /** Everything the crawl loop keeps true, for the normalised start URL `start`. */
  ghost predicate CrawlInvariant(web: Web, start: Url, visited0: set<Url>, maxPages: Option<int>,
                                 universe: set<Url>, s: CrawlState)
  {
    && SameSite(web, s.queue, web.registeredDomain(start))
    && SameSite(web, s.scraped, web.registeredDomain(start))
    && Bookkeeping(visited0, s)
    && s.dump == Entries(web, s.scraped)
    && (maxPages.None? ==> forall i :: 0 <= i < |s.queue| ==> s.queue[i] in universe)
    && (maxPages.Some? && |visited0| <= maxPages.value ==> |s.visited| <= maxPages.value)
    && (s.scraped == [] ==> s.queue == [start] || (start in visited0 && s.queue == []))
    && (s.scraped != [] ==> s.scraped[0] == start)
    && (start in visited0 ==> s.scraped == [])
    && (maxPages.Some? && |visited0| >= maxPages.value ==> s.scraped == [])
    && Frontier(web, s)
    && Reached(web, start, s)
  }

  /** What is left of the crawl's budget: pages under the limit, or unvisited URLs of the link graph. */
  ghost function Budget(maxPages: Option<int>, universe: set<Url>, s: CrawlState): nat
  {
    if maxPages.Some? then (if |s.visited| <= maxPages.value then maxPages.value - |s.visited| else 0)
    else |universe - s.visited|
  }

  /** On a link-closed graph the queue never leaves the graph, and visiting a page uses up one of its URLs. */
  lemma StepStaysInUniverse(web: Web, universe: set<Url>, s: CrawlState)
    requires LinkClosed(web, universe)
    requires s.queue != [] && forall i :: 0 <= i < |s.queue| ==> s.queue[i] in universe
    ensures forall i :: 0 <= i < |Step(web, s).queue| ==> Step(web, s).queue[i] in universe
    ensures s.queue[0] !in s.visited ==> |universe - Step(web, s).visited| < |universe - s.visited|
  {
    StepQueueStaysInUniverse(web, universe, s);
    if s.queue[0] !in s.visited {
      VisitingUsesUpUniverse(universe, s.visited, s.queue[0]);
    }
  }

  lemma StepQueueStaysInUniverse(web: Web, universe: set<Url>, s: CrawlState)
    requires LinkClosed(web, universe)
    requires s.queue != [] && forall i :: 0 <= i < |s.queue| ==> s.queue[i] in universe
    ensures forall i :: 0 <= i < |Step(web, s).queue| ==> Step(web, s).queue[i] in universe
  {
    var r := Step(web, s);
    var links := ScrapePage(web, s.queue[0]).links;
    forall i | 0 <= i < |r.queue|
      ensures r.queue[i] in universe
    {
      if i < |s.queue| - 1 {
        assert r.queue[i] == s.queue[1..][i];
      } else {
        assert r.queue[i] in links;
      }
    }
  }

  /** Marking an unvisited URL of the graph visited leaves fewer unvisited URLs in it. */
  lemma VisitingUsesUpUniverse(universe: set<Url>, visited: set<Url>, url: Url)
    requires url in universe && url !in visited
    ensures |universe - (visited + {url})| < |universe - visited|
  {
    assert universe - visited == (universe - (visited + {url})) + {url};
  }

  /** Every link of a scraped page has been visited or is still waiting in the queue. */
  ghost predicate Frontier(web: Web, s: CrawlState)
  {
    forall u, l :: u in s.scraped && l in ScrapePage(web, u).links ==> l in s.visited || l in s.queue
  }

  /** A step moves the head into the visited set and queues the new page's unvisited links. */
  lemma StepKeepsFrontier(web: Web, s: CrawlState)
    requires s.queue != [] && Frontier(web, s)
    ensures Frontier(web, Step(web, s))
  {
    var r := Step(web, s);
    assert s.queue[0] in r.visited;
    if s.queue[0] !in s.visited {
      forall l | l in ScrapePage(web, s.queue[0]).links && l !in r.visited
        ensures l in r.queue
      {
        assert l in r.queue[|s.queue| - 1..];
      }
    }
    FrontierAdvances(web, s, r);
  }

  /**
    The frontier survives any successor state that visits the old head,
    keeps the rest of the queue in front, and, when it scrapes the head,
    queues that page's links it has not visited.
   */
  lemma FrontierAdvances(web: Web, s: CrawlState, r: CrawlState)
    requires s.queue != [] && Frontier(web, s)
    requires s.visited <= r.visited && s.queue[0] in r.visited
    requires |s.queue| - 1 <= |r.queue| && r.queue[..|s.queue| - 1] == s.queue[1..]
    requires r.scraped == s.scraped || r.scraped == s.scraped + [s.queue[0]]
    requires r.scraped != s.scraped ==>
               forall l :: l in ScrapePage(web, s.queue[0]).links && l !in r.visited ==> l in r.queue
    ensures Frontier(web, r)
  {
    forall u, l | u in r.scraped && l in ScrapePage(web, u).links && l !in r.visited
      ensures l in r.queue
    {
      if u in s.scraped {
        var i :| 0 <= i < |s.queue| && s.queue[i] == l;
        assert i != 0;
        assert r.queue[..|s.queue| - 1][i - 1] == l;
      }
    }
  }

  /** `url` is a link of one of the first `n` pages of `scraped`. */
  ghost predicate LinkedFrom(web: Web, scraped: seq<Url>, n: int, url: Url)
  {
    exists j :: 0 <= j < n && j < |scraped| && url in ScrapePage(web, scraped[j]).links
  }

  /** Every page scraped after the first is a link of a page scraped before it. */
  ghost predicate ScrapedByLinks(web: Web, scraped: seq<Url>)
  {
    forall i :: 0 < i < |scraped| ==> LinkedFrom(web, scraped, i, scraped[i])
  }

  /** Every queued URL is the start or a link of a page already scraped, and pages are only scraped by following links. */
  ghost predicate Reached(web: Web, start: Url, s: CrawlState)
  {
    && (forall i :: 0 <= i < |s.queue| ==> s.queue[i] == start || LinkedFrom(web, s.scraped, |s.scraped|, s.queue[i]))
    && ScrapedByLinks(web, s.scraped)
  }

  /** A step only scrapes a queued URL and only queues links of the page it scrapes. */
  lemma StepKeepsReached(web: Web, start: Url, visited0: set<Url>, s: CrawlState)
    requires s.queue != [] && Reached(web, start, s) && Bookkeeping(visited0, s)
    requires s.scraped != [] ==> s.scraped[0] == start
    ensures Reached(web, start, Step(web, s))
  {
    var r := Step(web, s);
    var h := s.queue[0];
    if h !in s.visited {
      assert h == start ==> s.scraped == [];
      ReachedAdvances(web, start, s, r);
    }
  }

  /**
    Reachability survives scraping the head: the old queue stays in front,
    and everything appended is a link of the head's page.
   */
  lemma ReachedAdvances(web: Web, start: Url, s: CrawlState, r: CrawlState)
    requires s.queue != [] && Reached(web, start, s)
    requires s.queue[0] == start ==> s.scraped == []
    requires r.scraped == s.scraped + [s.queue[0]]
    requires |s.queue| - 1 <= |r.queue| && r.queue[..|s.queue| - 1] == s.queue[1..]
    requires forall i :: |s.queue| - 1 <= i < |r.queue| ==> r.queue[i] in ScrapePage(web, s.queue[0]).links
    ensures Reached(web, start, r)
  {
    forall i | 0 <= i < |r.queue| && r.queue[i] != start
      ensures LinkedFrom(web, r.scraped, |r.scraped|, r.queue[i])
    {
      if i < |s.queue| - 1 {
        assert r.queue[..|s.queue| - 1][i] == s.queue[i + 1];
        LinkedFromExtends(web, s.scraped, s.queue[0], |s.scraped|, r.queue[i]);
      } else {
        assert r.scraped[|s.scraped|] == s.queue[0];
      }
    }
    forall i | 0 < i < |r.scraped|
      ensures LinkedFrom(web, r.scraped, i, r.scraped[i])
    {
      if i < |s.scraped| {
        assert r.scraped[i] == s.scraped[i];
        LinkedFromExtends(web, s.scraped, s.queue[0], i, s.scraped[i]);
      } else {
        LinkedFromExtends(web, s.scraped, s.queue[0], i, s.queue[0]);
      }
    }
  }

  /** Appending a page keeps every link found among the first `n` pages. */
  lemma LinkedFromExtends(web: Web, scraped: seq<Url>, url: Url, n: int, link: Url)
    requires n <= |scraped| && LinkedFrom(web, scraped, n, link)
    ensures LinkedFrom(web, scraped + [url], n, link)
  {
    var j :| 0 <= j < n && j < |scraped| && link in ScrapePage(web, scraped[j]).links;
    assert (scraped + [url])[j] == scraped[j];
  }

  /** One loop iteration preserves the crawl invariant. */
  lemma StepKeepsCrawlInvariant(web: Web, start: Url, visited0: set<Url>, maxPages: Option<int>,
                                universe: set<Url>, s: CrawlState)
    requires maxPages.Some? || LinkClosed(web, universe)
    requires Continues(s, maxPages) && CrawlInvariant(web, start, visited0, maxPages, universe, s)
    ensures CrawlInvariant(web, start, visited0, maxPages, universe, Step(web, s))
  {
    StepKeepsSameSite(web, s, web.registeredDomain(start));
    StepKeepsBookkeeping(web, visited0, s);
    StepExtendsDump(web, s);
    StepKeepsFrontier(web, s);
    StepKeepsReached(web, start, visited0, s);
    if maxPages.None? {
      StepStaysInUniverse(web, universe, s);
    }
  }

  /** What the loop's invariant says once its guard fails. */
  lemma CrawlOutcome(web: Web, start: Url, visited0: set<Url>, maxPages: Option<int>,
                     universe: set<Url>, s: CrawlState)
    requires !Continues(s, maxPages) && CrawlInvariant(web, start, visited0, maxPages, universe, s)
    ensures start in visited0 || (maxPages.Some? && |visited0| >= maxPages.value) ==>
              s.scraped == [] && s.visited == visited0 && s.dump == []
    ensures start !in visited0 && (maxPages.None? || |visited0| < maxPages.value) ==>
              s.scraped != [] && s.scraped[0] == start
    ensures maxPages.Some? && |visited0| <= maxPages.value ==> |s.scraped| <= maxPages.value - |visited0|
    ensures forall u :: u in s.visited <==> u in visited0 || u in s.scraped
    ensures |s.visited| == |visited0| + |s.scraped|
    ensures forall u :: u in s.scraped ==> u !in visited0 && web.registeredDomain(u) == web.registeredDomain(start)
    ensures s.dump == Entries(web, s.scraped)
    ensures maxPages.Some? && |visited0| <= maxPages.value ==> |s.visited| <= maxPages.value
    ensures maxPages.None? || |s.visited| < maxPages.value ==>
              forall u, l :: u in s.scraped && l in ScrapePage(web, u).links ==> l in s.visited
    ensures ScrapedByLinks(web, s.scraped)
  {
    assert Frontier(web, s) && Reached(web, start, s);
    if maxPages.None? || |s.visited| < maxPages.value {
      FrontierClosesAtEmptyQueue(web, s);
    }
  }

  /** The state the crawl loop starts from satisfies its invariant. */
  lemma CrawlInvariantAtStart(web: Web, start: Url, visited0: set<Url>, maxPages: Option<int>, universe: set<Url>)
    requires maxPages.None? ==> start in universe
    ensures CrawlInvariant(web, start, visited0, maxPages, universe, CrawlState([start], visited0, [], []))
  {
  }

  /** Once the queue is empty, every link of a scraped page has been visited. */
  lemma FrontierClosesAtEmptyQueue(web: Web, s: CrawlState)
    requires s.queue == [] && Frontier(web, s)
    ensures forall u, l :: u in s.scraped && l in ScrapePage(web, u).links ==> l in s.visited
  {
  }

  /**
    `crawl_website(start_url, max_pages)` with the global visited set passed
    in as `visited0` and handed back as `visited`; `dump` is the list
    `content_dump`, whose concatenation the source writes to its output
    file, and `scraped` lists the pages fetched, in order. A `max_pages` of
    zero or below stops the loop before its first iteration. Without a page
    limit the crawl terminates only on a finite link graph, given here as
    `universe`; the source has no such parameter. It is an ordinary
    parameter so that callers name the graph they crawl; the loop body
    never reads it, only the termination argument does.
   */
  method CrawlWebsite(web: Web, startUrl: Url, maxPages: Option<int>, visited0: set<Url>, universe: set<Url>)
    returns (dump: seq<string>, visited: set<Url>, scraped: seq<Url>)
    requires maxPages.Some? || (NormaliseStart(startUrl) in universe && LinkClosed(web, universe))
    ensures forall u :: u in visited <==> u in visited0 || u in scraped
    ensures |visited| == |visited0| + |scraped|
    ensures forall u :: u in scraped ==>
              u !in visited0 && web.registeredDomain(u) == web.registeredDomain(NormaliseStart(startUrl))
    ensures dump == Entries(web, scraped)
    ensures maxPages.Some? && |visited0| <= maxPages.value ==>
              |visited| <= maxPages.value && |scraped| <= maxPages.value - |visited0|
    ensures maxPages.Some? && |visited0| >= maxPages.value ==> scraped == [] && visited == visited0 && dump == []
    ensures NormaliseStart(startUrl) in visited0 ==> scraped == [] && visited == visited0 && dump == []
    ensures NormaliseStart(startUrl) !in visited0 && (maxPages.None? || |visited0| < maxPages.value) ==>
              scraped != [] && scraped[0] == NormaliseStart(startUrl)
    ensures maxPages.None? || |visited| < maxPages.value ==>
              forall u, l :: u in scraped && l in ScrapePage(web, u).links ==> l in visited
    ensures ScrapedByLinks(web, scraped)
  {
    var start := NormaliseStart(startUrl);
    var s := CrawlState([start], visited0, [], []);
    CrawlInvariantAtStart(web, start, visited0, maxPages, universe);
    while Continues(s, maxPages)
      invariant CrawlInvariant(web, start, visited0, maxPages, universe, s)
      decreases Budget(maxPages, universe, s), |s.queue|
    {
      StepKeepsCrawlInvariant(web, start, visited0, maxPages, universe, s);
      if maxPages.None? {
        StepStaysInUniverse(web, universe, s);
      }
      s := Step(web, s);
    }
    CrawlOutcome(web, start, visited0, maxPages, universe, s);
    dump := s.dump;
    visited := s.visited;
    scraped := s.scraped;
  }

}

=== FILE: text.dfy ===
/**
  Sequence and string helpers shared by the crawl and the CLI-output models:
  Python's `str.startswith`, the substring test `needle in s`, order-preserving
  filtering (list comprehensions with a condition) and flattening (`"".join`).
 */
module Text {

  /** Python's `s.startswith(prefix)`. */
  predicate StartsWith(s: string, prefix: string)
  {
    |prefix| <= |s| && s[..|prefix|] == prefix
  }

  /** Python's `needle in s` on strings, scanned from the left. */
  predicate Contains(s: string, needle: string)
    decreases |s|
  {
    StartsWith(s, needle) || (|s| > 0 && Contains(s[1..], needle))
  }

  /** `needle` occurs in `s` at offset `k`. */
  ghost predicate OccursAt(s: string, needle: string, k: int)
  {
    0 <= k && k + |needle| <= |s| && s[k..k + |needle|] == needle
  }

  /** The scan agrees with the textbook definition of a substring. */
  lemma {:induction false} ContainsIffOccurs(s: string, needle: string)
    ensures Contains(s, needle) <==> exists k :: OccursAt(s, needle, k)
    decreases |s|
  {
    if Contains(s, needle) {
      if StartsWith(s, needle) {
        assert OccursAt(s, needle, 0);
      } else {
        ContainsIffOccurs(s[1..], needle);
        var k :| OccursAt(s[1..], needle, k);
        assert s[1..][k..k + |needle|] == s[k + 1..k + 1 + |needle|];
        assert OccursAt(s, needle, k + 1);
      }
    }
    if exists k :: OccursAt(s, needle, k) {
      var k :| OccursAt(s, needle, k);
      if k == 0 {
        assert StartsWith(s, needle);
      } else {
        assert s[1..][k - 1..k - 1 + |needle|] == s[k..k + |needle|];
        assert OccursAt(s[1..], needle, k - 1);
        ContainsIffOccurs(s[1..], needle);
      }
    }
  }

  /** A text that contains `needle` still contains it once more text is appended. */
  lemma {:induction false} ContainsExtends(s: string, t: string, needle: string)
    requires Contains(s, needle)
    ensures Contains(s + t, needle)
    decreases |s|
  {
    if StartsWith(s, needle) {
      assert (s + t)[..|needle|] == s[..|needle|];
    } else {
      assert (s + t)[1..] == s[1..] + t;
      ContainsExtends(s[1..], t, needle);
    }
  }

  /** The elements of `xs` that satisfy `keep`, in their original order. */
  function Filter<T>(xs: seq<T>, keep: T -> bool): (r: seq<T>)
    ensures |r| <= |xs|
    ensures forall i :: 0 <= i < |r| ==> r[i] in xs && keep(r[i])
    ensures forall i :: 0 <= i < |xs| && keep(xs[i]) ==> xs[i] in r
  {
    if xs == [] then []
    else (if keep(xs[0]) then [xs[0]] else []) + Filter(xs[1..], keep)
  }

  /**
    Filtering distributes over concatenation. Together with the one-element
    case this pins down that the filter keeps the surviving elements in the
    order in which they were produced.
   */
  lemma {:induction false} FilterAppend<T>(xs: seq<T>, ys: seq<T>, keep: T -> bool)
    ensures Filter(xs + ys, keep) == Filter(xs, keep) + Filter(ys, keep)
    decreases |xs|
  {
    if xs == [] {
      assert xs + ys == ys;
    } else {
      assert (xs + ys)[0] == xs[0];
      assert (xs + ys)[1..] == xs[1..] + ys;
      FilterAppend(xs[1..], ys, keep);
    }
  }

  lemma {:induction false} FilterKeepsAll<T>(xs: seq<T>, keep: T -> bool)
    requires forall i :: 0 <= i < |xs| ==> keep(xs[i])
    ensures Filter(xs, keep) == xs
    decreases |xs|
  {
    if xs != [] {
      FilterKeepsAll(xs[1..], keep);
    }
  }

  lemma {:induction false} FilterDropsAll<T>(xs: seq<T>, keep: T -> bool)
    requires forall i :: 0 <= i < |xs| ==> !keep(xs[i])
    ensures Filter(xs, keep) == []
    decreases |xs|
  {
    if xs != [] {
      FilterDropsAll(xs[1..], keep);
    }
  }

  /** Filtering a kept block, then a dropped block, then anything. */
  lemma {:induction false} FilterSkipsDropped<T>(kept: seq<T>, dropped: seq<T>, rest: seq<T>, keep: T -> bool)
    requires forall k :: 0 <= k < |kept| ==> keep(kept[k])
    requires forall k :: 0 <= k < |dropped| ==> !keep(dropped[k])
    ensures Filter(kept + dropped + rest, keep) == kept + Filter(rest, keep)
  {
    calc {
      Filter(kept + dropped + rest, keep);
      { FilterAppend(kept + dropped, rest, keep); }
      Filter(kept + dropped, keep) + Filter(rest, keep);
      { FilterAppend(kept, dropped, keep); }
      Filter(kept, keep) + Filter(dropped, keep) + Filter(rest, keep);
      { FilterKeepsAll(kept, keep); FilterDropsAll(dropped, keep); }
      kept + [] + Filter(rest, keep);
      { assert kept + [] == kept; }
      kept + Filter(rest, keep);
    }
  }

  /** Concatenation of a sequence of sequences (`"".join(parts)` for strings). */
  function Flatten<T>(xss: seq<seq<T>>): seq<T>
  {
    if xss == [] then [] else xss[0] + Flatten(xss[1..])
  }

  /** Index of the first character of `s` satisfying `p`, or `|s|` if there is none. */
  function FirstIndex(s: string, p: char -> bool): (j: nat)
    ensures j <= |s|
    ensures forall k :: 0 <= k < j ==> !p(s[k])
    ensures j < |s| ==> p(s[j])
  {
    if s == [] || p(s[0]) then 0 else 1 + FirstIndex(s[1..], p)
  }

  /** The first index is found at the end of a prefix with no match, when the rest is empty or starts with one. */
  lemma {:induction false} FirstIndexAfter(a: string, b: string, p: char -> bool)
    requires forall k :: 0 <= k < |a| ==> !p(a[k])
    requires b == [] || p(b[0])
    ensures FirstIndex(a + b, p) == |a|
    decreases |a|
  {
    if a != [] {
      assert (a + b)[1..] == a[1..] + b;
      FirstIndexAfter(a[1..], b, p);
    }
  }

}

=== FILE: wrappers.dfy ===
/** The Option datatype standing in for Python's `None`-or-value results. */
module Wrappers {

  datatype Option<+T> = None | Some(value: T)

}
